=== FILE: README.md ===
# Grounded school-chatbot core, modelled in Dafny

The chatbot answers WhatsApp messages about one school. It asks a text
generator to answer only from a fixed JSON document (the "school data").
Nothing checks that the generated answer does, and the model claims nothing
about grounding. Its core is in `index.js` and has four parts:

- **Log row sanitiser and composer** (`logResearchData`). It replaces every
  newline and comma in the question and the answer by a space. A falsy value
  becomes the empty string. It then composes the row
  `timestamp,"question","answer",duration` and a newline.
- **Append-only research log** (`data-penelitian.csv`). A logger call that
  finds the file missing first creates it with the header line
  `Timestamp,Pertanyaan,Jawaban,Waktu_Proses_ms`. A call that finds it present,
  for instance one left by an earlier run of the bot, only appends. A message
  whose generation or reply fails never reaches the logger, so it neither
  creates nor changes the file.
- **Prompt template.** The fixed instruction block is the persona, the rules
  and the exact fallback sentence. The prompt puts that block, the school data
  between two delimiter lines, the user's question in double quotes, and the
  `JAWABAN:` cue together, in that order.
- **Message handler.** It ignores `status@broadcast` and reads the clock. It
  builds the prompt and asks the generator. It replies, reads the clock again,
  and logs the interaction. Any error is caught and swallowed.

Modules, one per part plus helpers:

| file | module | what it holds |
|---|---|---|
| `options.dfy` | `Options` | `Option`: an absent JavaScript value, an absent file |
| `decimal.dfy` | `Decimal` | how the integral duration prints in the row, and how it reads back |
| `sanitise.dfy` | `Sanitise` | the newline/comma replacement and the falsy default |
| `split.dfy` | `Split` | cutting text at a separator (the reading side of the log format) |
| `csv_log.dfy` | `CsvLog` | the row, the log file as `Option<string>`, the logger call, a reader for the log |
| `prompt.dfy` | `Prompt` | the instruction block, the fallback sentence, the prompt template |
| `handler.dfy` | `Handler` | one message through the handler; a run over many messages |

The external world enters as parameters (`Handler.Env`):
- the generator, as a function from prompt to `Generated(text)` or `GenerationError`;
- whether the reply is delivered;
- the two clock readings, in milliseconds;
- the ISO timestamp the logger reads;
- which of the logger's two file writes succeed (`CsvLog.Disk`).

The school data is a string parameter: the pretty-printed JSON that is computed
once at startup.

To state the log's invariants, the model includes a reader (`CsvLog.ParseLog`).
The reader takes the header line and then splits each line at its commas. It
is the partner of the writer. The record properties are stated as what the
reader gets back. The prefix, comma-count and line-count properties are stated
on the file text itself.

Points of the handler's order that the model keeps as `index.js` has them:
- The answer is sent **before** the interaction is logged (index.js:119-122).
- The duration runs from message arrival to **after the reply was sent**
  (index.js:94, 121). It does not stop when generation completes.
- Messages whose body is exactly `status@broadcast` are dropped before anything
  else (index.js:92).
- A failed reply is an error like any other: nothing is logged for it
  (index.js:119, 125-127).

## Model

| member | source | states |
|---|---|---|
| Sanitise.Clean | index.js:20-21 | the cleaned text holds no newline and no comma; it has the same length; every other character is unchanged at its position; every newline and comma became a space |
| Sanitise.CleanField | index.js:20-21 | an absent value logs as the empty string; a present text, the empty one included, logs as its cleaned form; the result never holds a separator |
| Sanitise.CleanIdempotent | index.js:20-21 | cleaning an already cleaned text changes nothing |
| Sanitise.CleanFixedPoint | index.js:20-21 | cleaning leaves a text unchanged exactly when it holds no newline and no comma (both directions) |
| Sanitise.CleanConcat | index.js:20-21 | the global replacement acts character by character: cleaning a concatenation is concatenating the cleaned parts |
| CsvLog.Header | index.js:18 | the header line and its newline, as the logger writes them into a missing file; `HeaderIsEmptyLog` reads it as a log with no records |
| CsvLog.RowLine | index.js:20-23 | the row without its newline: timestamp, quoted cleaned question, quoted cleaned answer and duration, comma-separated; `RowRoundTrip` reads it back as the entry's record |
| CsvLog.Row | index.js:23 | the row line and its newline, as appended to the file; `RowShape` gives its three commas and single final newline |
| Decimal.IntText | index.js:23 | the printed duration is non-empty; it holds no comma, newline or double quote; it is all digits exactly when the duration is not negative; a negative one is a minus sign before digits; there is no leading zero |
| Decimal.IntTextRoundTrip | index.js:23 | reading the printed duration back gives the duration |
| CsvLog.RowShape | index.js:22-23 | with a timestamp free of separators, a row has exactly three commas and exactly one newline, which is its last character |
| CsvLog.RowRoundTrip | index.js:20-23 | a row reads back as four fields: the timestamp, the cleaned question, the cleaned answer and the duration |
| CsvLog.HeaderIsEmptyLog | index.js:18 | the header alone is one line and a log with no records |
| CsvLog.Append | index.js:16-25 | the old contents stay a prefix; an existing file stays existing; the call returns normally exactly when the row write succeeds (after the header write, for an absent file); on success the file is header + row, or old + row; a failed header write leaves the file absent, and a failed row write leaves it as it was, or as just the header when the call created it |
| CsvLog.AppendAddsOneRecord | index.js:16-25 | on a readable or absent log, a call that returns normally adds exactly the entry's record at the end; a call that throws adds none; the log stays readable; the line count grows by the rows and the header actually written |
| CsvLog.Replay | index.js:16-25 | the logger called once per entry, in order, with every write succeeding; `ReplayExisting` and `ReplayFromAbsent` state what it leaves |
| CsvLog.ReplayExisting | index.js:17-24 | N successful calls on an existing log keep the old contents as a prefix; they add N lines and the N records in order |
| CsvLog.ReplayFromAbsent | index.js:17-24 | from an absent file, N ≥ 1 successful calls give a file that starts with the header and has N + 1 lines; it reads back as the N records in order |
| Prompt.SystemInstruction | index.js:45-65 | the instruction block, character for character, with the fallback sentence quoted on its own line; `FallbackInInstruction` locates the sentence |
| Prompt.BuildPrompt | index.js:105-113 | the prompt template over the instruction, the school data and the question; `PromptLayout` gives its layout and `ExtractQuestion` undoes it |
| Prompt.PromptLayout | index.js:105-113 | the prompt holds the instruction, the school data and the question verbatim, in that order, not overlapping; what follows the question is exactly the closing quote and the `JAWABAN:` cue, and the prompt ends there |
| Prompt.ExtractBuild | index.js:105-113 | the question can be read back out of a prompt built on known instruction and school data |
| Prompt.BuildInjective | index.js:105-113 | different questions give different prompts |
| Prompt.FallbackInInstruction | index.js:63-64 | the exact fallback sentence stands in the instruction block between double quotes |
| Prompt.FallbackInPrompt | index.js:45-65 | every prompt the handler sends holds the fallback sentence, ahead of the school data |
| Handler.Handle | index.js:91-127 | `status@broadcast`, and only it, is ignored with no effect. Otherwise the clock is read and the generator is asked for exactly the built prompt. A generation error ends there: no reply, no log change. A generated text with a failed reply is attempted as the reply and nothing else changes. A generated text whose reply goes through is always delivered, and the delivered answer is that text. It is appended to the replies, then the clock is read again, then the logger runs. The effects list the header creation only for an absent file and the row append only when the file existed or its creation succeeded. The new log is exactly what the logger call on the entry's row leaves, the message counts as logged exactly when that call returns normally, and on a readable log it gains exactly the entry's record then and none otherwise. The row's duration is the difference of the two clock readings |
| Handler.OnMessage | index.js:91-127 | the event callback as one run step: exactly a broadcast is ignored; an answer is delivered exactly when generation succeeds and the reply goes through, and it is the generated text; the replies grow by that answer only; the log is what the logger call leaves, unchanged when nothing was delivered; the message counts as logged exactly when it was delivered and the row write succeeded on a file that existed or whose header write succeeded; an existing file stays existing; a readable log stays readable and gains exactly the message's own record (its body, answer, timestamp and duration) when it was logged, and none otherwise |
| Handler.ReplyIndependentOfDisk | index.js:119-127 | whether the log writes succeed does not change whether an answer is delivered, which answer, or the replies sent |
| Handler.Serve | index.js:91-127 | over a run of messages, from any starting log: exactly the broadcasts are ignored; each message is delivered exactly when its generation succeeds and its reply goes through, with the generated text as its answer; a message counts as logged only if its row write succeeded, and a delivered one always is when its row write succeeded and the file existed at the start or its header write succeeded; an existing log stays existing and only grows; from a readable log it stays readable, and its records are the old ones followed by, for each logged message in order, that message's own body, answer, timestamp and duration; the replies sent are the delivered answers, in order |

## Left out

- Handler.Serve: the condition under which a delivered message is logged is stated against whether the file existed when the run began. A later message whose header write fails after an earlier message of the same run created the file is still logged when its row write succeeds. Only `Handler.OnMessage`'s per-message clause states that case, because the run contract does not track when the file was created.
- WhatsApp client setup, QR pairing, puppeteer flags and `client.initialize` (index.js:67-88, 130): transport plumbing.
- `getChat` and `sendStateTyping` (index.js:98-99): transport plumbing. If they throw, the handler stops before generation, with no reply and no log, like the `GenerationError` path. The model does not represent that earlier exit separately.
- The Gemini SDK set-up and call (index.js:10-12, 115-117): a network call. It is the opaque `Env.generate`. A failed request and an unreadable response text both become `GenerationError`.
- Loading the school data at startup (index.js:27-42): file reading, `JSON.parse`, `JSON.stringify` and `process.exit` are library and process behaviour. The pretty-printed text is a parameter. The failure path exits before any handler runs, so no served state exists to model.
- `Date.now()` and `new Date().toISOString()` (index.js:22, 94, 121): wall-clock values, passed in as `Env` fields. The timestamp is assumed free of commas and newlines (`CsvLog.WellStamped`), as ISO-8601 output is.
- Decimal.IntText: models how JavaScript prints an integer number. Durations are differences of `Date.now()` values, so they are integers far below 1e21. The exponent notation JavaScript uses from 1e21 upward is not modelled.
- Console output (index.js:32-40, 87, 95, 123, 126): operator-facing only.
- Async scheduling and concurrent messages: `Handler.Serve` handles messages one after another. Interleaved handlers, and two writers appending to the log at once, are not modelled. Each file write is taken as whole or not at all.
- CSV escaping of double quotes: the code does not escape a `"` inside the question or answer. The model reader strips only the outer quotes, so it reads such rows back. A standard CSV reader would not. No quote-safety is claimed.
- Characters: the model's strings are sequences of Unicode code points, and JavaScript's are UTF-16 code units. Newline and comma are single code units, so the replacement is the same in both. The emoji in the instruction block are written as code-point escapes.
- `msg.from` is used only in console output and is not modelled.

=== FILE: csv_log.dfy ===
/** The research log written by `logResearchData`: the row composed from one
    interaction, and the append-only log file. A call that finds the file
    missing creates it with a fixed header line; a call that finds it present,
    left by this run or an earlier one, only appends. */
module CsvLog {
  import opened Options
  import opened Decimal
  import opened Sanitise
  import opened Split

  /** The column names, as the first line of a fresh log. */
  const HeaderLine: string := "Timestamp,Pertanyaan,Jawaban,Waktu_Proses_ms"

  /** What a fresh log file is created with before its first row. */
  const Header: string := HeaderLine + "\n"

  /** One interaction as it reads back from the log: the timestamp, the cleaned
      question and answer, and the processing time in milliseconds. */
  datatype Record = Record(time: string, question: string, answer: string, duration: int)

  /** One call of the logger: the write-time timestamp, the raw question and
      answer (either may be a falsy value), and the duration. */
  datatype Entry = Entry(time: string, question: Option<string>, answer: Option<string>, duration: int)

  /** The record an entry leaves in the log. */
  function RecordOf(e: Entry): Record {
    Record(e.time, CleanField(e.question), CleanField(e.answer), e.duration)
  }

  /** A text between double quotes, without escaping anything inside. */
  function Quote(s: string): string {
    ['"'] + s + ['"']
  }

  /** Four fields separated by commas. */
  function Join4(a: string, b: string, c: string, d: string): string {
    a + [','] + (b + [','] + (c + [','] + d))
  }

  /** The records a sequence of entries leaves, in order. */
  function RecordsOf(es: seq<Entry>): (rs: seq<Record>)
    ensures |rs| == |es|
  {
    if es == [] then [] else [RecordOf(es[0])] + RecordsOf(es[1..])
  }

  /** The row without its line terminator: timestamp, the two cleaned texts in
      double quotes, the duration, separated by commas. */
  function RowLine(e: Entry): string {
    Join4(e.time, Quote(CleanField(e.question)), Quote(CleanField(e.answer)), IntText(e.duration))
  }

  /** The text appended to the log for one entry. */
  function Row(e: Entry): string {
    RowLine(e) + "\n"
  }

  /** A timestamp as `toISOString` prints it holds neither separator. */
  predicate WellStamped(e: Entry) {
    FieldSafe(e.time)
  }

  /** A double-quoted field's contents; the quotes are not escapes. */
  function Unquote(f: string): (r: Option<string>)
    ensures r.Some? ==> f == Quote(r.value)
  {
    if 2 <= |f| && f[0] == '"' && f[|f| - 1] == '"' then Some(f[1..|f| - 1]) else None
  }

  /** Reads one row line back into a record: exactly four comma-separated fields,
      the middle two quoted, the last an integer. */
  function ParseRow(line: string): (r: Option<Record>)
    ensures r.Some? ==> ',' !in r.value.time
  {
    var f := SplitOn(line, ',');
    if |f| != 4 then None
    else
      match (Unquote(f[1]), Unquote(f[2]), ParseInt(f[3]))
      case (Some(q), Some(a), Some(d)) => Some(Record(f[0], q, a, d))
      case _ => None
  }

  /** The newline-terminated lines of `s`, without their terminators; `None`
      when `s` does not end with a newline. */
  function Lines(s: string): (r: Option<seq<string>>)
    ensures r.Some? ==> forall k :: 0 <= k < |r.value| ==> '\n' !in r.value[k]
    decreases |s|
  {
    if s == [] then Some([])
    else
      var i := IndexOf(s, '\n');
      if i == |s| then None
      else
        match Lines(s[i + 1..])
        case Some(rest) => Some([s[..i]] + rest)
        case None => None
  }

  /** Reads every line as a row; `None` if any line is not one. */
  function ParseAll(lines: seq<string>): (r: Option<seq<Record>>)
    ensures r.Some? ==> |r.value| == |lines|
  {
    if lines == [] then Some([])
    else
      match (ParseRow(lines[0]), ParseAll(lines[1..]))
      case (Some(rec), Some(recs)) => Some([rec] + recs)
      case _ => None
  }

  /** Reads the newline-terminated rows of `s`. */
  function ParseRows(s: string): Option<seq<Record>> {
    match Lines(s)
    case Some(ls) => ParseAll(ls)
    case None => None
  }

  /** Reads a whole log file: the header line, then the rows. */
  function ParseLog(content: string): Option<seq<Record>> {
    if |Header| <= |content| && content[..|Header|] == Header then ParseRows(content[|Header|..])
    else None
  }

  /** The contents of the log file, empty when it does not exist. */
  function Content(file: Option<string>): string {
    file.GetOr("")
  }

  /** The number of lines of a text, counted by their terminators. */
  function LineCount(s: string): nat {
    multiset(s)['\n']
  }

  /** Lines of two texts put together add up. */
  lemma LineCountConcat(a: string, b: string)
    ensures LineCount(a + b) == LineCount(a) + LineCount(b)
  {
    assert multiset(a + b) == multiset(a) + multiset(b);
  }

  /** A log the reader accepts: absent, or the header line followed by rows. */
  predicate ValidLog(file: Option<string>) {
    file.None? || ParseLog(file.value).Some?
  }

  /** The records a log holds; an absent log holds none. */
  function Records(file: Option<string>): seq<Record>
    requires ValidLog(file)
  {
    if file.None? then [] else ParseLog(file.value).value
  }

  /** Which of the logger's two file writes succeed: creating the file with its
      header (only attempted when the file is absent) and appending the row. */
  datatype Disk = Disk(headerWrites: bool, appendWrites: bool)

  /** The file after a logger call, and whether the call returned normally
      (`false` when a write threw). */
  datatype Written = Written(file: Option<string>, ok: bool)

  /** One logger call: create the file with the header if it is absent, then
      append the row. Each write is whole or not at all. */
  function Append(file: Option<string>, row: string, disk: Disk): (w: Written)
    ensures Content(file) <= Content(w.file)
    ensures file.Some? ==> w.file.Some?
    ensures w.ok <==> disk.appendWrites && (file.Some? || disk.headerWrites)
    ensures w.ok && file.None? ==> w.file == Some(Header + row)
    ensures w.ok && file.Some? ==> w.file == Some(file.value + row)
    ensures !w.ok ==> w.file == (if file.None? && disk.headerWrites then Some(Header) else file)
  {
    if file.None? && !disk.headerWrites then Written(None, false)
    else
      var existing := if file.None? then Header else file.value;
      if disk.appendWrites then Written(Some(existing + row), true)
      else Written(Some(existing), false)
  }

  /** A disk on which every write succeeds. */
  const Healthy: Disk := Disk(true, true)

  /** A line the log reader accepts as a row. */
  predicate RowLike(line: string) {
    '\n' !in line && ParseRow(line).Some?
  }

  /** The row lines of a sequence of entries, in order. */
  function RowLines(es: seq<Entry>): (ls: seq<string>)
    ensures |ls| == |es|
    ensures forall k :: 0 <= k < |es| ==> ls[k] == RowLine(es[k])
  {
    if es == [] then [] else [RowLine(es[0])] + RowLines(es[1..])
  }

  /** The records of a sequence of row lines, in order. */
  function ParsedRows(lines: seq<string>): (rs: seq<Record>)
    requires forall k :: 0 <= k < |lines| ==> RowLike(lines[k])
    ensures |rs| == |lines|
  {
    if lines == [] then []
    else
      assert RowLike(lines[0]);
      [ParseRow(lines[0]).value] + ParsedRows(lines[1..])
  }

  /** The log after appending each line, terminated, with every write succeeding. */
  function AppendLines(file: Option<string>, lines: seq<string>): Option<string>
    decreases |lines|
  {
    if lines == [] then file
    else AppendLines(Append(file, lines[0] + ['\n'], Healthy).file, lines[1..])
  }

  /** The log after the logger has been called once per entry, in order, with
      every write succeeding. */
  function Replay(file: Option<string>, es: seq<Entry>): Option<string> {
    AppendLines(file, RowLines(es))
  }

  // ---------------------------------------------------------------------------
  // Properties of a row

  lemma QuoteSafe(s: string)
    requires FieldSafe(s)
    ensures FieldSafe(Quote(s))
  {
    assert forall k :: 0 <= k < |Quote(s)| ==> Quote(s)[k] == '"' || Quote(s)[k] in s;
  }

  lemma Join4Counts(a: string, b: string, c: string, d: string)
    requires FieldSafe(a) && FieldSafe(b) && FieldSafe(c) && FieldSafe(d)
    ensures multiset(Join4(a, b, c, d))[','] == 3
    ensures '\n' !in Join4(a, b, c, d)
  {
    var j := Join4(a, b, c, d);
    assert multiset(j) == multiset(a) + multiset([',']) + multiset(b) + multiset([',']) + multiset(c) + multiset([',']) + multiset(d);
    assert '\n' !in multiset(j);
  }

  lemma Join2Split(c: string, d: string)
    requires ',' !in c && ',' !in d
    ensures SplitOn(c + [','] + d, ',') == [c, d]
  {
    SplitOnNone(d, ',');
    SplitOnCons(c, ',', d);
  }

  lemma Join3Split(b: string, c: string, d: string)
    requires ',' !in b && ',' !in c && ',' !in d
    ensures SplitOn(b + [','] + (c + [','] + d), ',') == [b, c, d]
  {
    Join2Split(c, d);
    SplitOnCons(b, ',', c + [','] + d);
  }

  lemma Join4Split(a: string, b: string, c: string, d: string)
    requires FieldSafe(a) && FieldSafe(b) && FieldSafe(c) && FieldSafe(d)
    ensures SplitOn(Join4(a, b, c, d), ',') == [a, b, c, d]
  {
    var rest := b + [','] + (c + [','] + d);
    var pieces := SplitOn(a + [','] + rest, ',');
    assert pieces == [a] + [b, c, d] by {
      Join3Split(b, c, d);
      SplitOnCons(a, ',', rest);
    }
    assert pieces == [a, b, c, d];
  }

  /** The row's four fields, each free of separators when the timestamp is. */
  lemma RowFields(e: Entry)
    requires WellStamped(e)
    ensures FieldSafe(Quote(CleanField(e.question)))
    ensures FieldSafe(Quote(CleanField(e.answer)))
    ensures FieldSafe(IntText(e.duration))
  {
    QuoteSafe(CleanField(e.question));
    QuoteSafe(CleanField(e.answer));
  }

  /** A row has exactly three commas and exactly one newline, its last character. */
  lemma RowShape(e: Entry)
    requires WellStamped(e)
    ensures var r := Row(e);
      && multiset(r)[','] == 3
      && LineCount(r) == 1
      && r[|r| - 1] == '\n'
      && '\n' !in RowLine(e)
  {
    RowFields(e);
    Join4Counts(e.time, Quote(CleanField(e.question)), Quote(CleanField(e.answer)), IntText(e.duration));
    assert multiset(Row(e)) == multiset(RowLine(e)) + multiset(['\n']);
  }

  /** A row reads back as the entry's record: the same timestamp and duration,
      and the cleaned question and answer. */
  lemma RowRoundTrip(e: Entry)
    requires WellStamped(e)
    ensures ParseRow(RowLine(e)) == Some(RecordOf(e))
  {
    var q := CleanField(e.question);
    var a := CleanField(e.answer);
    var d := IntText(e.duration);
    assert SplitOn(RowLine(e), ',') == [e.time, Quote(q), Quote(a), d] by {
      RowFields(e);
      Join4Split(e.time, Quote(q), Quote(a), d);
    }
    UnquoteQuote(q);
    UnquoteQuote(a);
    IntTextRoundTrip(e.duration);
  }

  /** Quoting a field and reading it back gives the field. */
  lemma UnquoteQuote(s: string)
    ensures Unquote(Quote(s)) == Some(s)
  {
    assert Quote(s)[1..|Quote(s)| - 1] == s;
  }

  // ---------------------------------------------------------------------------
  // Properties of the log file

  lemma ConcatAssoc<T>(a: seq<T>, b: seq<T>, c: seq<T>)
    ensures (a + b) + c == a + (b + c)
  {
  }

  lemma ConcatEmpty<T>(a: seq<T>)
    ensures [] + a == a
  {
  }

  /** Cutting into lines takes the first line off the front. */
  lemma LinesCons(line: string, rest: string)
    requires '\n' !in line
    ensures Lines(line + ['\n'] + rest) ==
      match Lines(rest)
      case Some(ls) => Some([line] + ls)
      case None => None
  {
    var s := line + ['\n'] + rest;
    IndexOfAfterPrefix(line, '\n', rest);
    assert s[..|line|] == line;
    assert s[|line| + 1..] == rest;
  }

  /** A terminated line appended to a text adds one line at the end. */
  lemma {:induction false} LinesSnoc(x: string, line: string)
    requires Lines(x).Some?
    requires '\n' !in line
    ensures Lines(x + line + ['\n']) == Some(Lines(x).value + [line])
    decreases |x|
  {
    if x == [] {
      var empty: string := [];
      assert Lines(empty) == Some([]);
      assert x + line + ['\n'] == line + ['\n'] + empty;
      LinesCons(line, empty);
      var noLines: seq<string> := [];
      assert [line] + noLines == [line];
      assert Lines(line + ['\n'] + empty) == Some([line]);
      assert Lines(x).value + [line] == [line];
    } else {
      var i := IndexOf(x, '\n');
      var head := x[..i];
      var tail := x[i + 1..];
      assert x == head + ['\n'] + tail;
      LinesCons(head, tail);
      assert x + line + ['\n'] == head + ['\n'] + (tail + line + ['\n']);
      LinesCons(head, tail + line + ['\n']);
      LinesSnoc(tail, line);
      assert [head] + (Lines(tail).value + [line]) == ([head] + Lines(tail).value) + [line];
    }
  }

  /** Reading one more line as a row adds its record at the end. */
  lemma {:induction false} ParseAllSnoc(lines: seq<string>, line: string)
    requires ParseAll(lines).Some? && ParseRow(line).Some?
    ensures ParseAll(lines + [line]) == Some(ParseAll(lines).value + [ParseRow(line).value])
  {
    if lines != [] {
      assert (lines + [line])[1..] == lines[1..] + [line];
      ParseAllSnoc(lines[1..], line);
      var first := ParseRow(lines[0]).value;
      var rest := ParseAll(lines[1..]).value;
      assert (lines + [line])[0] == lines[0];
      assert ParseAll(lines) == Some([first] + rest);
      assert ParseAll(lines + [line]) == Some([first] + (rest + [ParseRow(line).value]));
      assert [first] + (rest + [ParseRow(line).value]) == ([first] + rest) + [ParseRow(line).value];
    } else {
      assert lines + [line] == [line];
      assert [line][1..] == [];
      var v := ParseRow(line).value;
      var noRecords: seq<Record> := [];
      assert ParseAll([line]) == Some([v] + noRecords);
      assert [v] + noRecords == [v];
      assert ParseAll(lines).value + [v] == [v];
    }
  }

  /** A row line appended to readable rows is read as one more record. */
  lemma ParseRowsSnoc(x: string, line: string)
    requires ParseRows(x).Some?
    requires '\n' !in line && ParseRow(line).Some?
    ensures ParseRows(x + line + ['\n']) == Some(ParseRows(x).value + [ParseRow(line).value])
  {
    LinesSnoc(x, line);
    ParseAllSnoc(Lines(x).value, line);
  }

  /** The header alone is a log with no records. */
  lemma HeaderIsEmptyLog()
    ensures ParseLog(Header) == Some([])
    ensures LineCount(Header) == 1
  {
    assert Header[..|Header|] == Header;
    assert Header[|Header|..] == [];
    assert '\n' !in HeaderLine;
  }

  /** A row line appended to a readable log is read back as one more record. */
  lemma ParseLogSnoc(content: string, line: string)
    requires ParseLog(content).Some?
    requires '\n' !in line && ParseRow(line).Some?
    ensures ParseLog(content + line + ['\n']) == Some(ParseLog(content).value + [ParseRow(line).value])
  {
    var n := |Header|;
    var longer := content + line + ['\n'];
    assert longer[..n] == content[..n];
    assert longer[n..] == content[n..] + line + ['\n'];
    ParseRowsSnoc(content[n..], line);
  }

  /** Appending a terminated row line to a readable log text. */
  lemma ExtendLog(existing: string, line: string)
    requires ParseLog(existing).Some?
    requires '\n' !in line && ParseRow(line).Some?
    ensures ParseLog(existing + (line + ['\n'])) == Some(ParseLog(existing).value + [ParseRow(line).value])
    ensures LineCount(existing + (line + ['\n'])) == LineCount(existing) + 1
  {
    ParseLogSnoc(existing, line);
    LineCountConcat(existing, line + ['\n']);
    assert existing + line + ['\n'] == existing + (line + ['\n']);
    assert multiset(line + ['\n']) == multiset(line) + multiset(['\n']);
  }

  /** The logger's effect on the records for any terminated row line. */
  lemma AppendLine(file: Option<string>, line: string, disk: Disk)
    requires ValidLog(file)
    requires '\n' !in line && ParseRow(line).Some?
    ensures var w := Append(file, line + ['\n'], disk);
      && ValidLog(w.file)
      && Records(w.file) == Records(file) + (if w.ok then [ParseRow(line).value] else [])
      && LineCount(Content(w.file)) == LineCount(Content(file)) + (if w.ok then 1 else 0) + (if file.None? && w.file.Some? then 1 else 0)
  {
    var row := line + ['\n'];
    var w := Append(file, row, disk);
    if file.None? {
      HeaderIsEmptyLog();
      if disk.headerWrites && disk.appendWrites {
        ExtendLog(Header, line);
        assert Records(w.file) == [ParseRow(line).value];
      }
    } else if disk.appendWrites {
      ExtendLog(file.value, line);
    }
  }

  /** A logger call adds exactly the entry's record when it returns normally,
      and no record at all when a write throws; an absent or well-formed log
      stays well-formed whatever fails. */
  lemma AppendAddsOneRecord(file: Option<string>, e: Entry, disk: Disk)
    requires ValidLog(file)
    requires WellStamped(e)
    ensures var w := Append(file, Row(e), disk);
      && ValidLog(w.file)
      && Records(w.file) == Records(file) + (if w.ok then [RecordOf(e)] else [])
      && LineCount(Content(w.file)) == LineCount(Content(file)) + (if w.ok then 1 else 0) + (if file.None? && w.file.Some? then 1 else 0)
  {
    RowShape(e);
    RowRoundTrip(e);
    assert Row(e) == RowLine(e) + ['\n'];
    AppendLine(file, RowLine(e), disk);
  }

  /** Appending row lines to an existing log only extends it: one line and one
      record per row, and the old contents stay an unchanged prefix. */
  lemma {:induction false} AppendLinesExisting(file: Option<string>, lines: seq<string>)
    requires file.Some? && ValidLog(file)
    requires forall k :: 0 <= k < |lines| ==> RowLike(lines[k])
    ensures var f := AppendLines(file, lines);
      && f.Some?
      && ValidLog(f)
      && file.value <= f.value
      && LineCount(f.value) == LineCount(file.value) + |lines|
      && Records(f) == Records(file) + ParsedRows(lines)
    decreases |lines|
  {
    if lines != [] {
      var next := Append(file, lines[0] + ['\n'], Healthy).file;
      AppendLine(file, lines[0], Healthy);
      var rest := lines[1..];
      assert forall k :: 0 <= k < |rest| ==> RowLike(rest[k]);
      AppendLinesExisting(next, rest);
      var r := ParseRow(lines[0]).value;
      ConcatAssoc(Records(file), [r], ParsedRows(rest));
    } else {
      assert Records(file) + [] == Records(file);
    }
  }

  /** Every row the logger writes is one the reader accepts. */
  lemma RowLinesAccepted(es: seq<Entry>)
    requires forall k :: 0 <= k < |es| ==> WellStamped(es[k])
    ensures forall k :: 0 <= k < |es| ==> RowLike(RowLines(es)[k])
  {
    forall k | 0 <= k < |es|
      ensures RowLike(RowLines(es)[k])
    {
      RowShape(es[k]);
      RowRoundTrip(es[k]);
    }
  }

  /** The rows the logger writes read back as the entries' records. */
  lemma {:induction false} RowLinesParse(es: seq<Entry>)
    requires forall k :: 0 <= k < |es| ==> WellStamped(es[k])
    ensures forall k :: 0 <= k < |es| ==> RowLike(RowLines(es)[k])
    ensures ParsedRows(RowLines(es)) == RecordsOf(es)
  {
    RowLinesAccepted(es);
    if es != [] {
      RowRoundTrip(es[0]);
      var rest := es[1..];
      assert forall k :: 0 <= k < |rest| ==> WellStamped(rest[k]);
      RowLinesParse(rest);
      assert RowLines(es)[1..] == RowLines(rest);
    }
  }

  /** Logging into an existing log only extends it: one line and one record per
      entry, and the old contents stay an unchanged prefix. */
  lemma ReplayExisting(file: Option<string>, es: seq<Entry>)
    requires file.Some? && ValidLog(file)
    requires forall k :: 0 <= k < |es| ==> WellStamped(es[k])
    ensures var f := Replay(file, es);
      && f.Some?
      && ValidLog(f)
      && file.value <= f.value
      && LineCount(f.value) == LineCount(file.value) + |es|
      && Records(f) == Records(file) + RecordsOf(es)
  {
    RowLinesParse(es);
    AppendLinesExisting(file, RowLines(es));
  }

  /** On a healthy disk an absent log behaves as one holding just the header. */
  lemma AbsentActsAsHeader(lines: seq<string>)
    requires 1 <= |lines|
    ensures AppendLines(None, lines) == AppendLines(Some(Header), lines)
  {
    var row := lines[0] + ['\n'];
    assert Append(None, row, Healthy).file == Append(Some(Header), row, Healthy).file;
  }

  /** Appending row lines to an absent log: the header, then one line per row. */
  lemma AppendLinesFromAbsent(lines: seq<string>)
    requires 1 <= |lines|
    requires forall k :: 0 <= k < |lines| ==> RowLike(lines[k])
    ensures var f := AppendLines(None, lines);
      && f.Some?
      && ValidLog(f)
      && Header <= f.value
      && LineCount(f.value) == |lines| + 1
      && Records(f) == ParsedRows(lines)
  {
    AbsentActsAsHeader(lines);
    HeaderIsEmptyLog();
    AppendLinesExisting(Some(Header), lines);
    ConcatEmpty(ParsedRows(lines));
  }

  /** Starting from an absent file, N logged interactions leave the header and
      then N rows: N + 1 lines, reading back as the N records in order. */
  lemma ReplayFromAbsent(es: seq<Entry>)
    requires 1 <= |es|
    requires forall k :: 0 <= k < |es| ==> WellStamped(es[k])
    ensures var f := Replay(None, es);
      && f.Some?
      && ValidLog(f)
      && Header <= f.value
      && LineCount(f.value) == |es| + 1
      && Records(f) == RecordsOf(es)
  {
    RowLinesParse(es);
    AppendLinesFromAbsent(RowLines(es));
  }
}

=== FILE: decimal.dfy ===
/** Decimal rendering of the integral millisecond duration, as a JavaScript
    template literal prints a safe integer (`${duration}` in the log row), and
    the reading that undoes it. */
module Decimal {
  import opened Options

  predicate IsDigit(c: char) {
    '0' <= c <= '9'
  }

  predicate AllDigits(s: string) {
    forall i :: 0 <= i < |s| ==> IsDigit(s[i])
  }

  function DigitValue(c: char): (d: nat)
    requires IsDigit(c)
    ensures d < 10
  {
    c as int - '0' as int
  }

  function DigitChar(d: nat): (c: char)
    requires d < 10
    ensures IsDigit(c) && DigitValue(c) == d
  {
    (d + '0' as int) as char
  }

  /** The digits of `n`, most significant first, with no leading zero. */
  function NatText(n: nat): (s: string)
    ensures 1 <= |s| && AllDigits(s)
    ensures 1 < |s| ==> s[0] != '0'
    decreases n
  {
    if n < 10 then [DigitChar(n)] else NatText(n / 10) + [DigitChar(n % 10)]
  }

  /** The number a string of digits denotes (the empty one denotes 0). */
  function DigitsValue(s: string): nat
    requires AllDigits(s)
  {
    if s == [] then 0 else DigitsValue(s[..|s| - 1]) * 10 + DigitValue(s[|s| - 1])
  }

  /** How a safe integer prints: a minus sign before the magnitude when negative. */
  function IntText(n: int): (s: string)
    ensures 1 <= |s|
    ensures ',' !in s && '\n' !in s && '"' !in s
    ensures n >= 0 <==> AllDigits(s)
    ensures n < 0 ==> 2 <= |s| && s[0] == '-' && AllDigits(s[1..]) && (2 < |s| ==> s[1] != '0')
    ensures n >= 0 && 1 < |s| ==> s[0] != '0'
  {
    if n < 0 then
      var m := NatText(-n);
      var s := "-" + m;
      assert s[0] == '-' && !IsDigit(s[0]);
      s
    else
      NatText(n)
  }

  /** Reads an optionally negative decimal integer; anything else is `None`. */
  function ParseInt(s: string): (r: Option<int>)
    ensures r.Some? ==> 1 <= |s|
  {
    if |s| >= 2 && s[0] == '-' && AllDigits(s[1..]) then Some(0 - DigitsValue(s[1..]))
    else if |s| >= 1 && AllDigits(s) then Some(DigitsValue(s))
    else None
  }

  lemma {:induction false} NatTextRoundTrip(n: nat)
    ensures DigitsValue(NatText(n)) == n
    decreases n
  {
    if n >= 10 {
      var s := NatText(n);
      NatTextRoundTrip(n / 10);
      assert s[..|s| - 1] == NatText(n / 10);
    }
  }

  /** Reading back the printed duration gives the duration. */
  lemma IntTextRoundTrip(n: int)
    ensures ParseInt(IntText(n)) == Some(n)
  {
    var s := IntText(n);
    if n < 0 {
      var m := NatText(-n);
      assert s[0] == '-' && s[1..] == m;
      NatTextRoundTrip(-n);
      assert ParseInt(s) == Some(0 - DigitsValue(m));
    } else {
      assert IsDigit(s[0]);
      NatTextRoundTrip(n);
    }
  }
}

=== FILE: handler.dfy ===
/** The per-message handler registered on the chat client: drop status
    broadcasts, build the prompt, ask the generator, reply, then log the
    interaction with its processing time; any error is caught and swallowed. */
module Handler {
  import opened Options
  import opened Sanitise
  import opened CsvLog
  import opened Prompt

  /** The body of the messages the handler ignores. */
  const StatusBroadcast: string := "status@broadcast"

  /** What the text generator gives for a prompt: the response text, or an error
      (a rejected request, or a response whose text cannot be read). */
  datatype Generation = Generated(text: string) | GenerationError

  /** Everything one message meets outside the core: the generator, whether the
      reply is delivered, the clock read at arrival and after the reply, the
      ISO timestamp the logger reads, and which log writes succeed. */
  datatype Env = Env(
    generate: string -> Generation,
    replyDelivers: bool,
    startMs: int,
    endMs: int,
    stamp: string,
    disk: Disk)

  /** The state the handler changes: the log file and the replies delivered so far. */
  datatype World = World(log: Option<string>, sent: seq<string>)

  /** The handler's visible steps, in the order it takes them. */
  datatype Effect =
    | ReadClock(ms: int)
    | Ask(prompt: string)
    | Reply(text: string)
    | CreateLog(header: string)
    | AppendRow(row: string)

  /** How a message ended. `LogFailed` still delivered its answer. */
  datatype Status =
    | Ignored
    | GenerationFailed
    | ReplyFailed
    | LogFailed(answer: string)
    | Answered(answer: string)
  {
    predicate Delivered() {
      LogFailed? || Answered?
    }
  }

  datatype Outcome = Outcome(world: World, effects: seq<Effect>, status: Status)

  /** The prompt sent for a message body over the loaded school data. */
  function PromptFor(corpus: string, body: string): string {
    BuildPrompt(SystemInstruction, corpus, body)
  }

  /** The log entry written for a delivered answer: the raw body and answer, the
      logger's timestamp, and the time from arrival to after the reply. */
  function EntryFor(body: string, answer: string, env: Env): Entry {
    Entry(env.stamp, Some(body), Some(answer), env.endMs - env.startMs)
  }

  /** The file writes the logger attempts for a row: creating an absent file
      with the header, then appending the row unless that creation threw. */
  function LogWrites(log: Option<string>, row: string, disk: Disk): seq<Effect> {
    (if log.None? then [CreateLog(Header)] else [])
    + (if log.Some? || disk.headerWrites then [AppendRow(row)] else [])
  }

  /** One message through the handler. */
  function Handle(w: World, body: string, corpus: string, env: Env): (o: Outcome)
    ensures o.status.Ignored? <==> body == StatusBroadcast
    ensures o.status.Ignored? ==> o.world == w && o.effects == []
    ensures !o.status.Ignored? ==>
      && 2 <= |o.effects|
      && o.effects[0] == ReadClock(env.startMs)
      && o.effects[1] == Ask(PromptFor(corpus, body))
    ensures o.status.GenerationFailed? <==>
      body != StatusBroadcast && env.generate(PromptFor(corpus, body)).GenerationError?
    ensures o.status.ReplyFailed? <==>
      body != StatusBroadcast && env.generate(PromptFor(corpus, body)).Generated? && !env.replyDelivers
    ensures o.status.Delivered() <==>
      body != StatusBroadcast && env.generate(PromptFor(corpus, body)).Generated? && env.replyDelivers
    ensures !o.status.Delivered() ==> o.world == w
    ensures o.status.GenerationFailed? ==> |o.effects| == 2
    ensures o.status.ReplyFailed? ==> o.effects[2..] == [Reply(env.generate(PromptFor(corpus, body)).text)]
    ensures o.status.Delivered() ==>
      var row := Row(EntryFor(body, o.status.answer, env));
      var written := Append(w.log, row, env.disk);
      && env.generate(PromptFor(corpus, body)) == Generated(o.status.answer)
      && o.world.sent == w.sent + [o.status.answer]
      && o.effects[2..] == [Reply(o.status.answer), ReadClock(env.endMs)] + LogWrites(w.log, row, env.disk)
      && o.world.log == written.file
      && (o.status.Answered? <==> written.ok)
    ensures Content(w.log) <= Content(o.world.log)
    ensures ValidLog(w.log) && FieldSafe(env.stamp) ==>
      && ValidLog(o.world.log)
      && Records(o.world.log) == Records(w.log) + (if o.status.Answered? then [RecordOf(EntryFor(body, o.status.answer, env))] else [])
  {
    if body == StatusBroadcast then Outcome(w, [], Ignored)
    else
      var prompt := PromptFor(corpus, body);
      var asked := [ReadClock(env.startMs), Ask(prompt)];
      match env.generate(prompt)
      case GenerationError => Outcome(w, asked, GenerationFailed)
      case Generated(text) =>
        if !env.replyDelivers then Outcome(w, asked + [Reply(text)], ReplyFailed)
        else
          var entry := EntryFor(body, text, env);
          var row := Row(entry);
          var written := Append(w.log, row, env.disk);
          var status := if written.ok then Answered(text) else LogFailed(text);
          var after := [Reply(text), ReadClock(env.endMs)] + LogWrites(w.log, row, env.disk);
          var o := Outcome(World(written.file, w.sent + [text]), asked + after, status);
          assert o.effects[2..] == after;
          if ValidLog(w.log) && FieldSafe(env.stamp) then
            AppendAddsOneRecord(w.log, entry, env.disk);
            o
          else
            o
  }

  /** Whether the log writes succeed has no bearing on what is replied: a
      logging failure never withholds or retracts an answer. */
  lemma ReplyIndependentOfDisk(w: World, body: string, corpus: string, env: Env, other: Disk)
    ensures var a := Handle(w, body, corpus, env);
      var b := Handle(w, body, corpus, env.(disk := other));
      && a.world.sent == b.world.sent
      && a.status.Delivered() == b.status.Delivered()
      && (a.status.Delivered() ==> a.status.answer == b.status.answer)
  {
    var a := Handle(w, body, corpus, env);
    var b := Handle(w, body, corpus, env.(disk := other));
    if a.status.Delivered() {
      assert env.generate(PromptFor(corpus, body)) == Generated(a.status.answer);
      assert b.status.Delivered();
    }
  }

  /** The handler as the client invokes it, seen from outside: what a run of
      messages relies on. */
  method OnMessage(w: World, body: string, corpus: string, env: Env) returns (o: Outcome)
    ensures o.status.Ignored? <==> body == StatusBroadcast
    ensures o.status.Delivered() <==>
      body != StatusBroadcast && env.generate(PromptFor(corpus, body)).Generated? && env.replyDelivers
    ensures o.status.Delivered() ==> env.generate(PromptFor(corpus, body)) == Generated(o.status.answer)
    ensures o.world.sent == w.sent + (if o.status.Delivered() then [o.status.answer] else [])
    ensures o.status.Delivered() ==>
      var written := Append(w.log, Row(EntryFor(body, o.status.answer, env)), env.disk);
      o.world.log == written.file && (o.status.Answered? <==> written.ok)
    ensures !o.status.Delivered() ==> o.world.log == w.log
    ensures o.status.Answered? <==>
      o.status.Delivered() && env.disk.appendWrites && (w.log.Some? || env.disk.headerWrites)
    ensures w.log.Some? ==> o.world.log.Some?
    ensures Content(w.log) <= Content(o.world.log)
    ensures ValidLog(w.log) && FieldSafe(env.stamp) ==>
      && ValidLog(o.world.log)
      && Records(o.world.log) == Records(w.log) + (if o.status.Answered? then [RecordOf(EntryFor(body, o.status.answer, env))] else [])
  {
    o := Handle(w, body, corpus, env);
  }

  /** The answers delivered over a run, in the order the messages ended. */
  function DeliveredAnswers(statuses: seq<Status>): (answers: seq<string>)
    ensures |answers| <= |statuses|
  {
    if statuses == [] then []
    else
      var last := statuses[|statuses| - 1];
      DeliveredAnswers(statuses[..|statuses| - 1]) + (if last.Delivered() then [last.answer] else [])
  }

  /** How many messages of a run ended with their interaction logged. */
  function LoggedCount(statuses: seq<Status>): (n: nat)
    ensures n <= |statuses|
  {
    if statuses == [] then 0
    else LoggedCount(statuses[..|statuses| - 1]) + (if statuses[|statuses| - 1].Answered? then 1 else 0)
  }

  /** The records a run's logged messages leave, in order: for each answered
      message, its own body, answer, timestamp and duration. */
  function LoggedRecords(bodies: seq<string>, envs: seq<Env>, statuses: seq<Status>): (rs: seq<Record>)
    requires |statuses| <= |bodies| && |statuses| <= |envs|
    ensures |rs| == LoggedCount(statuses)
  {
    if statuses == [] then []
    else
      var n := |statuses| - 1;
      LoggedRecords(bodies, envs, statuses[..n])
      + (if statuses[n].Answered? then [RecordOf(EntryFor(bodies[n], statuses[n].answer, envs[n]))] else [])
  }

  lemma LoggedRecordsSnoc(bodies: seq<string>, envs: seq<Env>, statuses: seq<Status>, last: Status)
    requires |statuses| < |bodies| && |statuses| < |envs|
    ensures var n := |statuses|;
      LoggedRecords(bodies, envs, statuses + [last])
      == LoggedRecords(bodies, envs, statuses) + (if last.Answered? then [RecordOf(EntryFor(bodies[n], last.answer, envs[n]))] else [])
  {
    assert (statuses + [last])[..|statuses|] == statuses;
  }

  lemma StatusesSnoc(statuses: seq<Status>, last: Status)
    ensures DeliveredAnswers(statuses + [last]) == DeliveredAnswers(statuses) + (if last.Delivered() then [last.answer] else [])
    ensures LoggedCount(statuses + [last]) == LoggedCount(statuses) + (if last.Answered? then 1 else 0)
  {
    assert (statuses + [last])[..|statuses|] == statuses;
  }

  lemma PrefixChain<T>(a: seq<T>, b: seq<T>, c: seq<T>)
    requires a <= b && b <= c
    ensures a <= c
  {
  }

  /** How a message's ending answers to its world: exactly a broadcast is
      ignored; a message is delivered exactly when its generation succeeds and
      its reply goes through; and what is delivered is the generated text. */
  predicate Accounted(corpus: string, body: string, env: Env, status: Status) {
    && (status.Ignored? <==> body == StatusBroadcast)
    && (status.Delivered() <==>
         body != StatusBroadcast && env.generate(PromptFor(corpus, body)).Generated? && env.replyDelivers)
    && (status.Delivered() ==> env.generate(PromptFor(corpus, body)) == Generated(status.answer))
  }

  /** How a delivered message's logging answers to its disk: it counts as
      logged only when the row write succeeded, and it is logged whenever the
      row write succeeded on a file that already existed or whose header write
      succeeded. `existed` says the file was there when the run began. */
  predicate LogAccounted(existed: bool, env: Env, status: Status) {
    && (status.Answered? ==> env.disk.appendWrites)
    && (status.Delivered() && env.disk.appendWrites && (existed || env.disk.headerWrites) ==> status.Answered?)
  }

  /** Every message of a run carries a timestamp free of separators, as the
      ISO-8601 text the logger reads always is. */
  predicate WellStampedRun(envs: seq<Env>) {
    forall k :: 0 <= k < |envs| ==> FieldSafe(envs[k].stamp)
  }

  /** The client handing each incoming message to the handler, one after the
      other. Exactly the broadcasts are ignored; a message is answered exactly
      when its generation succeeds and its reply is delivered, and the answer is
      the generated text; the log only grows; on a readable log every answered
      message adds one record; the replies delivered are exactly the answers of
      the delivered outcomes. */
  method Serve(w0: World, corpus: string, bodies: seq<string>, envs: seq<Env>) returns (w: World, statuses: seq<Status>)
    requires |bodies| == |envs|
    ensures |statuses| == |bodies|
    ensures forall k :: 0 <= k < |bodies| ==> Accounted(corpus, bodies[k], envs[k], statuses[k])
    ensures forall k :: 0 <= k < |bodies| ==> LogAccounted(w0.log.Some?, envs[k], statuses[k])
    ensures w0.log.Some? ==> w.log.Some?
    ensures Content(w0.log) <= Content(w.log)
    // The prefix and the count below are corollaries of the exact equation.
    ensures ValidLog(w0.log) && WellStampedRun(envs) ==>
      && ValidLog(w.log)
      && Records(w0.log) <= Records(w.log)
      && Records(w.log) == Records(w0.log) + LoggedRecords(bodies, envs, statuses)
      && |Records(w.log)| == |Records(w0.log)| + LoggedCount(statuses)
    ensures w.sent == w0.sent + DeliveredAnswers(statuses)
  {
    w := w0;
    statuses := [];
    var i := 0;
    while i < |bodies|
      invariant 0 <= i <= |bodies|
      invariant |statuses| == i
      invariant forall k :: 0 <= k < i ==> Accounted(corpus, bodies[k], envs[k], statuses[k])
      invariant forall k :: 0 <= k < i ==> LogAccounted(w0.log.Some?, envs[k], statuses[k])
      invariant w0.log.Some? ==> w.log.Some?
      invariant Content(w0.log) <= Content(w.log)
      invariant ValidLog(w0.log) && WellStampedRun(envs) ==>
        && ValidLog(w.log)
        && Records(w.log) == Records(w0.log) + LoggedRecords(bodies, envs, statuses)
      invariant w.sent == w0.sent + DeliveredAnswers(statuses)
    {
      var o := OnMessage(w, bodies[i], corpus, envs[i]);
      var next := statuses + [o.status];
      assert LogAccounted(w0.log.Some?, envs[i], o.status);
      assert o.world.sent == w0.sent + DeliveredAnswers(next) by {
        StatusesSnoc(statuses, o.status);
        ConcatAssoc(w0.sent, DeliveredAnswers(statuses), if o.status.Delivered() then [o.status.answer] else []);
      }
      assert Content(w0.log) <= Content(o.world.log) by {
        PrefixChain(Content(w0.log), Content(w.log), Content(o.world.log));
      }
      if ValidLog(w0.log) && WellStampedRun(envs) {
        assert FieldSafe(envs[i].stamp);
        assert Records(o.world.log) == Records(w0.log) + LoggedRecords(bodies, envs, next) by {
          LoggedRecordsSnoc(bodies, envs, statuses, o.status);
          ConcatAssoc(Records(w0.log), LoggedRecords(bodies, envs, statuses),
            if o.status.Answered? then [RecordOf(EntryFor(bodies[i], o.status.answer, envs[i]))] else []);
        }
      }
      w := o.world;
      statuses := next;
      i := i + 1;
    }
  }
}

=== FILE: options.dfy ===
/** The optional-value type shared by the model: a JavaScript value that may be
    `undefined`, and a file that may not exist. */
module Options {

  datatype Option<+T> = None | Some(value: T) {

    /** The wrapped value, or `default` when there is none. */
    function GetOr(default: T): T {
      match this
      case Some(v) => v
      case None => default
    }
  }
}

=== FILE: prompt.dfy ===
/** The prompt sent to the text generator for every message: the fixed
    instruction block, the school data between two delimiter lines, the user's
    question in double quotes, and the answer cue. */
module Prompt {
  import opened Options

  /** The exact sentence the generator is told to answer with when the school
      data does not hold the answer. */
  const Fallback: string :=
    "\U{1F916} Mohon maaf, informasi tersebut belum tersedia dalam sistem kami. Silakan hubungi Tata Usaha (Pak Cholam) di 0855-1234-4321 untuk informasi lebih lanjut."

  /** The instruction block up to the fallback sentence: persona, tasks,
      formatting rules and the strict-grounding rule. */
  const InstructionLead: string :=
      "\n"
      + "PERAN: Anda adalah \"Meki\", Asisten Digital Cerdas dari SMA Negeri 1 Baji Ajalah.\n"
      + "\n"
      + "TUGAS UTAMA:\n"
      + "1. Jika User menyapa (Halo/P/Assalamualaikum) -> Berikan salam pembuka dan tawarkan bantuan.\n"
      + "2. Jika User bertanya -> Jawab berdasarkan DATA JSON yang dilampirkan.\n"
      + "3. Greeting: Halo \U{1F44B}! Saya Meki, Chatbot SMA Negeri 1 Baji Ajalah. Saya siap membantu Anda dengan informasi seputar Penerimaan Peserta Didik Baru dan berikan point-point yang bisa anda jelaskan agar user tidak bingung untuk bertanya.\n"
      + "\n"
      + "ATURAN FORMAT & GAYA BAHASA:\n"
      + "1. Gunakan Bahasa Indonesia formal, ramah, dan solutif.\n"
      + "2. Gunakan Emoji yang relevan.\n"
      + "3. **FORMAT WHATSAPP:**\n"
      + "   - Gunakan tanda bintang (*) untuk menebalkan poin penting.\n"
      + "   - Gunakan strip (-) untuk daftar/list.\n"
      + "   - **WAJIB:** Berikan jarak antar paragraf (Enter 2x) agar tulisan tidak menumpuk.\n"
      + "\n"
      + "BATASAN (STRICT):\n"
      + "- JANGAN MENGARANG / HALUSINASI. Jawaban harus 100% bersumber dari DATA JSON.\n"
      + "- Jika data tidak ditemukan, JANGAN menebak. Jawablah persis dengan kalimat ini:\n"

  /** The whole instruction block; the fallback sentence sits in it, quoted, on
      its own indented line. */
  const SystemInstruction: string := InstructionLead + "  \"" + Fallback + "\"\n"

  /** The fixed pieces of the prompt template around its three inputs. */
  const Opening: string := "\n        "
  const CorpusOpening: string := "\n\n        === DATA SEKOLAH (SUMBER KEBENARAN) ===\n        "
  const QuestionOpening: string := "\n        =======================================\n\n        PERTANYAAN USER: \""
  const Closing: string := "\"\n        JAWABAN:"

  /** The prompt for one question. */
  function BuildPrompt(instruction: string, corpus: string, question: string): string {
    Opening + instruction + CorpusOpening + corpus + QuestionOpening + question + Closing
  }

  /** Everything of the prompt before the question. */
  function Preamble(instruction: string, corpus: string): string {
    Opening + instruction + CorpusOpening + corpus + QuestionOpening
  }

  /** `needle` stands in `hay` starting at position `at`. */
  predicate Occurs(needle: string, hay: string, at: int) {
    0 <= at && at + |needle| <= |hay| && hay[at..at + |needle|] == needle
  }

  /** Where the instruction, the corpus and the question start in a prompt. */
  function InstructionAt(): nat {
    |Opening|
  }

  function CorpusAt(instruction: string): nat {
    |Opening| + |instruction| + |CorpusOpening|
  }

  function QuestionAt(instruction: string, corpus: string): nat {
    |Preamble(instruction, corpus)|
  }

  /** Recovers the question from a prompt built on the given instruction and
      corpus; `None` for any text that is not such a prompt. */
  function ExtractQuestion(instruction: string, corpus: string, prompt: string): (q: Option<string>)
    ensures q.Some? ==> |q.value| + |Preamble(instruction, corpus)| + |Closing| == |prompt|
  {
    var pre := Preamble(instruction, corpus);
    if |pre| + |Closing| <= |prompt| && prompt[..|pre|] == pre && prompt[|prompt| - |Closing|..] == Closing
    then Some(prompt[|pre|..|prompt| - |Closing|])
    else None
  }

  /** A text stands at the end of anything it is appended to. */
  lemma OccursAtEnd(left: string, needle: string)
    ensures Occurs(needle, left + needle, |left|)
  {
    assert (left + needle)[|left|..|left| + |needle|] == needle;
  }

  /** Appending to a text keeps what stands in it where it stands. */
  lemma OccursExtend(needle: string, hay: string, at: int, right: string)
    requires Occurs(needle, hay, at)
    ensures Occurs(needle, hay + right, at)
  {
    assert (hay + right)[at..at + |needle|] == hay[at..at + |needle|];
  }

  lemma OccursWithin(needle: string, middle: string, at: int, hay: string, from: int)
    requires Occurs(needle, middle, at) && Occurs(middle, hay, from)
    ensures Occurs(needle, hay, from + at)
  {
    forall i | 0 <= i < |needle|
      ensures hay[from + at + i] == needle[i]
    {
      assert hay[from..from + |middle|][at + i] == middle[at + i];
      assert middle[at..at + |needle|][i] == middle[at + i];
    }
    assert hay[from + at..from + at + |needle|] == needle;
  }

  /** The prompt holds the instruction, the corpus and the question verbatim,
      in that order and without overlap; after the question come only the
      closing quote and the answer cue. */
  lemma PromptLayout(instruction: string, corpus: string, question: string)
    ensures var p := BuildPrompt(instruction, corpus, question);
      && Occurs(instruction, p, InstructionAt())
      && Occurs(corpus, p, CorpusAt(instruction))
      && Occurs(question, p, QuestionAt(instruction, corpus))
      && InstructionAt() + |instruction| < CorpusAt(instruction)
      && CorpusAt(instruction) + |corpus| < QuestionAt(instruction, corpus)
      && |p| == QuestionAt(instruction, corpus) + |question| + |Closing|
      && p[QuestionAt(instruction, corpus) + |question|..] == Closing
  {
    var withInstruction := Opening + instruction;
    var withCorpusOpening := withInstruction + CorpusOpening;
    var withCorpus := withCorpusOpening + corpus;
    var preamble := withCorpus + QuestionOpening;
    var withQuestion := preamble + question;
    var p := withQuestion + Closing;
    OccursAtEnd(Opening, instruction);
    OccursExtend(instruction, withInstruction, |Opening|, CorpusOpening);
    OccursExtend(instruction, withCorpusOpening, |Opening|, corpus);
    OccursExtend(instruction, withCorpus, |Opening|, QuestionOpening);
    OccursExtend(instruction, preamble, |Opening|, question);
    OccursExtend(instruction, withQuestion, |Opening|, Closing);
    OccursAtEnd(withCorpusOpening, corpus);
    OccursExtend(corpus, withCorpus, |withCorpusOpening|, QuestionOpening);
    OccursExtend(corpus, preamble, |withCorpusOpening|, question);
    OccursExtend(corpus, withQuestion, |withCorpusOpening|, Closing);
    OccursAtEnd(preamble, question);
    OccursExtend(question, withQuestion, |preamble|, Closing);
    OccursAtEnd(withQuestion, Closing);
  }

  /** The question can be read back out of the prompt. */
  lemma ExtractBuild(instruction: string, corpus: string, question: string)
    ensures ExtractQuestion(instruction, corpus, BuildPrompt(instruction, corpus, question)) == Some(question)
  {
    var pre := Preamble(instruction, corpus);
    var p := BuildPrompt(instruction, corpus, question);
    assert p == pre + question + Closing;
    assert p[..|pre|] == pre;
    assert p[|p| - |Closing|..] == Closing;
    assert p[|pre|..|p| - |Closing|] == question;
  }

  /** Two different questions never yield the same prompt. */
  lemma BuildInjective(instruction: string, corpus: string, q1: string, q2: string)
    requires BuildPrompt(instruction, corpus, q1) == BuildPrompt(instruction, corpus, q2)
    ensures q1 == q2
  {
    ExtractBuild(instruction, corpus, q1);
    ExtractBuild(instruction, corpus, q2);
  }

  /** A sentence put on an indented line of its own, between double quotes,
      after some lead text. */
  lemma QuotedAfter(lead: string, sentence: string)
    ensures var block := lead + "  \"" + sentence + "\"\n";
      && Occurs(sentence, block, |lead| + 3)
      && block[|lead| + 2] == '"'
      && block[|lead| + 3 + |sentence|] == '"'
  {
    var lineStart := lead + "  \"";
    var withSentence := lineStart + sentence;
    OccursAtEnd(lineStart, sentence);
    OccursExtend(sentence, withSentence, |lineStart|, "\"\n");
    assert lineStart[|lead| + 2] == '"';
  }

  /** The fallback sentence stands, quoted, in the instruction block. */
  lemma FallbackInInstruction()
    ensures Occurs(Fallback, SystemInstruction, |InstructionLead| + 3)
    ensures SystemInstruction[|InstructionLead| + 2] == '"'
    ensures SystemInstruction[|InstructionLead| + 3 + |Fallback|] == '"'
  {
    QuotedAfter(InstructionLead, Fallback);
  }

  /** Whatever the instruction block contains, every prompt built on it contains
      too, before the corpus. */
  lemma InstructionPartInPrompt(instruction: string, corpus: string, question: string, needle: string, at: int)
    requires Occurs(needle, instruction, at)
    ensures Occurs(needle, BuildPrompt(instruction, corpus, question), InstructionAt() + at)
    ensures InstructionAt() + at + |needle| < CorpusAt(instruction)
  {
    PromptLayout(instruction, corpus, question);
    OccursWithin(needle, instruction, at, BuildPrompt(instruction, corpus, question), InstructionAt());
  }

  /** A sentence quoted on its own line of an instruction block stands in every
      prompt built on that block, ahead of the corpus. */
  lemma QuotedInPrompt(instruction: string, lead: string, sentence: string, corpus: string, question: string)
    requires instruction == lead + "  \"" + sentence + "\"\n"
    ensures var at := InstructionAt() + |lead| + 3;
      && Occurs(sentence, BuildPrompt(instruction, corpus, question), at)
      && at + |sentence| < CorpusAt(instruction)
  {
    QuotedAfter(lead, sentence);
    InstructionPartInPrompt(instruction, corpus, question, sentence, |lead| + 3);
  }

  /** Every prompt the handler sends carries the exact fallback sentence, ahead
      of the corpus and the question. */
  lemma FallbackInPrompt(corpus: string, question: string)
    ensures var at := InstructionAt() + |InstructionLead| + 3;
      && Occurs(Fallback, BuildPrompt(SystemInstruction, corpus, question), at)
      && at + |Fallback| < CorpusAt(SystemInstruction)
  {
    QuotedInPrompt(SystemInstruction, InstructionLead, Fallback, corpus, question);
  }
}

=== FILE: sanitise.dfy ===
/** The field cleaning `logResearchData` applies to the question and the
    answer before they go into a log row: the global regular-expression
    replacement of every newline and every comma by one space, and the
    falsy-value default. */
module Sanitise {
  import opened Options

  /** The two characters that would break a row: the record and field separators. */
  predicate IsDelimiter(c: char) {
    c == '\n' || c == ','
  }

  /** A text that can stand in a row without opening a new field or line. */
  predicate FieldSafe(s: string) {
    ',' !in s && '\n' !in s
  }

  /** Every newline and comma replaced by one space, scanning left to right. */
  function Clean(s: string): (r: string)
    ensures |r| == |s|
    ensures FieldSafe(r)
    ensures forall i :: 0 <= i < |s| && !IsDelimiter(s[i]) ==> r[i] == s[i]
    ensures forall i :: 0 <= i < |s| && IsDelimiter(s[i]) ==> r[i] == ' '
  {
    if s == [] then []
    else [if IsDelimiter(s[0]) then ' ' else s[0]] + Clean(s[1..])
  }

  /** The value logged for a question or answer: a falsy one (absent, or the
      empty string) becomes the empty string, any other is cleaned. */
  function CleanField(v: Option<string>): (r: string)
    ensures FieldSafe(r)
    ensures v.None? ==> r == []
    ensures v.Some? ==> r == Clean(v.value)
  {
    match v
    case None => ""
    case Some(s) => if s == "" then "" else Clean(s)
  }

  /** Cleaning twice is cleaning once. */
  lemma CleanIdempotent(s: string)
    ensures Clean(Clean(s)) == Clean(s)
  {
    var once := Clean(s);
    var twice := Clean(once);
    forall i | 0 <= i < |s|
      ensures twice[i] == once[i]
    {
      assert !IsDelimiter(once[i]);
    }
  }

  /** A text is left alone by cleaning exactly when it holds no separator. */
  lemma CleanFixedPoint(s: string)
    ensures Clean(s) == s <==> FieldSafe(s)
  {
    if FieldSafe(s) {
      forall i | 0 <= i < |s|
        ensures Clean(s)[i] == s[i]
      {
        assert s[i] !in {'\n', ','};
      }
    }
  }

  /** Cleaning works character by character, so it distributes over concatenation. */
  lemma {:induction false} CleanConcat(a: string, b: string)
    ensures Clean(a + b) == Clean(a) + Clean(b)
  {
    if a != [] {
      assert (a + b)[1..] == a[1..] + b;
      CleanConcat(a[1..], b);
    } else {
      assert a + b == b;
    }
  }
}

=== FILE: split.dfy ===
/** Cutting a text at a separator character: the reading side of the log
    format, used to show that what the logger writes comes back apart into the
    same lines and fields. */
module Split {

  /** The position of the first `c` in `s`, or `|s|` when there is none. */
  function IndexOf(s: string, c: char): (i: nat)
    ensures i <= |s|
    ensures i < |s| ==> s[i] == c
    ensures forall j :: 0 <= j < i ==> s[j] != c
  {
    if s == [] then 0
    else if s[0] == c then 0
    else 1 + IndexOf(s[1..], c)
  }

  /** The pieces of `s` between occurrences of `c`; there is always at least one. */
  function SplitOn(s: string, c: char): (parts: seq<string>)
    ensures 1 <= |parts|
    ensures forall k :: 0 <= k < |parts| ==> c !in parts[k]
    decreases |s|
  {
    var i := IndexOf(s, c);
    if i == |s| then [s] else [s[..i]] + SplitOn(s[i + 1..], c)
  }

  /** The first separator after a separator-free prefix is the one right after it. */
  lemma IndexOfAfterPrefix(a: string, c: char, b: string)
    requires c !in a
    ensures IndexOf(a + [c] + b, c) == |a|
  {
    var s := a + [c] + b;
    assert s[|a|] == c;
    forall j | 0 <= j < |a|
      ensures s[j] != c
    {
      assert s[j] == a[j] && a[j] in a;
    }
  }

  /** Splitting a text with no separator gives the text back whole. */
  lemma SplitOnNone(s: string, c: char)
    requires c !in s
    ensures SplitOn(s, c) == [s]
  {
    forall j | 0 <= j < |s|
      ensures s[j] != c
    {
      assert s[j] in s;
    }
  }

  /** Splitting peels off a separator-free prefix as the first piece. */
  lemma SplitOnCons(a: string, c: char, b: string)
    requires c !in a
    ensures SplitOn(a + [c] + b, c) == [a] + SplitOn(b, c)
  {
    var s := a + [c] + b;
    IndexOfAfterPrefix(a, c, b);
    assert s[..|a|] == a;
    assert s[|a| + 1..] == b;
  }
}
